=== FILE: README.md ===
# ShoreSquad collection logic in Dafny

ShoreSquad is a single-page front end for coordinating beach clean-ups. Its
state lives in the browser's `localStorage` under three keys: the beach list,
the crew list and the aggregate statistics. This project models the logic in
`js/app.js` that can be stated without a browser. Each piece is written as a
pure function over immutable records and a `map<string, Value>` store:

- seeding the store on first run (`initLocalStorage`);
- the case-insensitive beach search of `renderBeaches`;
- the beach lookup of `selectBeach`;
- crew creation with its form guard and fresh-id rule (`createCrew`);
- joining a crew (`joinCrew`);
- the statistics panel (`updateStats`);
- the scroll rule that marks a navigation link active (`updateActiveNavLink`).

Two small pieces of JavaScript semantics are modelled because the logic
depends on them. The first is `parseInt` without a radix, which decides
whether the crew-size field passes the guard. The second is
`String.prototype.includes` together with lower-casing, which the search uses.

Modules, one per file:

| file | module | contents |
|---|---|---|
| wrappers.dfy | Wrappers | `Option` |
| seqs.dfy | Seqs | `Find`, the first-match lookup of `Array.prototype.find` |
| text.dfy | Text | ASCII lower-casing and substring search |
| int_parsing.dfy | IntParsing | `parseInt` with the radix left undefined, and decimal numerals |
| records.dfy | Records | `Beach`, `Crew`, `Stats` |
| storage.dfy | Storage | the store, its keys and readers, the seed data, `InitLocalStorage` |
| search.dfy | Search | the search filter, `RenderBeaches`, `SelectBeach` |
| crews.dfy | Crews | `NextId`, the form guard, `CreateCrew`, `JoinCrew` |
| stats_panel.dfy | StatsPanel | `UpdateStats` |
| nav.dfy | Nav | the active-link interval rule |
| session.dfy | Session | any sequence of create and join actions, and the invariant it keeps |

`js/app.js` contains no weather service call and no marker map:
`renderWeather` renders a fixed four-entry array and `initMap` writes
placeholder markup, so neither is modelled. The stored statistics object
carries a `crews` counter, but `updateStats` shows the live length of the
crew list and never reads that field.
`StatsPanel.UpdateStatsIgnoresStoredCrewCount` states this.

## Model

| member | source | states |
|---|---|---|
| Storage.InitLocalStorage | js/app.js:30-60 | afterwards all three keys are present; a key that was present keeps its value; a missing or blank key gets its default; no other key changes |
| Storage.InitLocalStorageIdempotent | js/app.js:30-60 | seeding twice gives the same store as seeding once |
| Storage.InitLocalStorageReads | js/app.js:30-60 | seeding keeps a well-typed store well typed; afterwards each reader returns the stored collection, or the default list or counters on first run |
| Storage.SeedKey | js/app.js:31-39 | one key is written only when `getItem` is falsy, and then holds the default; otherwise the store is unchanged |
| Storage.BeachesOf | js/app.js:177 | a missing or blank key reads as the empty list (`|| '[]'`); otherwise the stored list |
| Storage.CrewsOf | js/app.js:305 | a missing or blank key reads as the empty list; otherwise the stored list |
| Storage.StatsOf | js/app.js:391 | a missing or blank key reads as `{}`, with no counter present |
| Storage.CrewsOfWrite | js/app.js:314-315 | writing the whole crew list reads back the same list and leaves the beach list and the counters as they were |
| Seqs.Find | js/app.js:210 | returns the first index whose element satisfies the predicate, or none exactly when no element does |
| Text.Contains | js/app.js:182-183 | `includes` holds if and only if the term occurs at some position of the string |
| Text.LowerStr | js/app.js:179-183 | same length; no upper-case letter remains; each ASCII capital becomes its lower-case letter (code plus 32) and every other character is kept |
| Text.ContainsTransitive | js/app.js:182-183 | a string containing `u` contains everything `u` contains |
| Text.LowerStrIdempotent | js/app.js:179 | lower-casing an already lower-cased string changes nothing |
| Search.SearchTerm | js/app.js:179 | a missing search box gives the empty term; otherwise the term has the box's length, each character is the box's character lower-cased, and no upper-case letter remains |
| Search.Matches | js/app.js:181-183 | a beach matches if and only if the term occurs at some position of its lower-cased name or of its lower-cased location; the empty term matches every beach |
| Search.Filter | js/app.js:181-184 | every kept beach comes from the list and matches the term on name or location; every matching beach is kept |
| Search.FilterSelectsExactly | js/app.js:181-184 | the result lists the input at a strictly increasing run of positions, and a position is on the run if and only if its beach matches, so the result is exactly the matching beaches in their original order |
| Search.MatchingIndicesExact | js/app.js:181-184 | the matching positions increase strictly, and a position is listed if and only if its beach matches |
| Search.FilterAtMatchingIndices | js/app.js:181-184 | the filter's result is the beach list read off at the matching positions |
| Search.FilterEmptyTerm | js/app.js:179-184 | the empty term keeps every beach, in order |
| Search.FilterRefines | js/app.js:181-184 | filtering by a term equals filtering by any term it contains and then filtering that result again |
| Search.RenderBeaches | js/app.js:176-184 | the displayed beaches are exactly the stored beaches that match the lower-cased search term |
| Search.RenderBeachesEmptySearch | js/app.js:179-184 | a missing or empty search box shows every stored beach |
| Search.RenderBeachesIgnoresCase | js/app.js:179-183 | typing a term in upper or lower case gives the same result |
| Search.RenderBeachesTypingNarrows | js/app.js:179-184 | extending the typed term gives the previous results, filtered again |
| Search.FindBeach | js/app.js:210 | finds a beach if and only if one has the id, and then the first such beach |
| Search.SelectBeach | js/app.js:208-216 | acts exactly when some stored beach has the id, and then returns the first stored beach with that id, the one whose name the toast shows |
| IntParsing.ParseInt | js/app.js:298 | NaN if and only if, after the leading white space and one sign, no digit follows (for a `0x`/`0X` prefix, no hex digit after it); a negative result needs a leading `-`, and a positive one rules it out; the magnitude is the value of the digit run read, in base 16 or 10, and the result is 0 exactly when every digit read is `0` (so `"00"`, `"-0"`, `"0x0"` and `"0.5"` give 0) |
| IntParsing.DigitsValueZero | js/app.js:298-300 | a run of digits denotes zero if and only if every digit is `0`, which decides the `!size` test once NaN is ruled out |
| IntParsing.TrimStart | js/app.js:298 | drops exactly the leading white space, as `parseInt` does |
| IntParsing.DigitPrefix | js/app.js:298 | takes the longest run of digits at the front; the next character, if any, is not a digit |
| IntParsing.ParseIntDecimalString | js/app.js:298 | `parseInt` reads back every integer numeral, negative ones included |
| IntParsing.ParseUnsignedStopsAtNonDigit | js/app.js:298 | text after the leading decimal digits is ignored unless the whole starts with a hex prefix |
| IntParsing.ParseUnsignedNoDigits | js/app.js:298 | NaN when the numeral does not start with a digit |
| IntParsing.ParseIntSkipsLeadingSpace | js/app.js:298 | leading white space does not change the result |
| Crews.MaxId | js/app.js:307 | non-negative, at least every id, and equal to 0 or to some crew's id |
| Crews.NextId | js/app.js:307 | at least 1, above every existing id, and either 1 or one more than an existing id (so 1 for an empty list) |
| Crews.FormComplete | js/app.js:296-300 | an accepted form has a non-empty name and a non-empty location; a missing size field, a blank size and the size `0` are rejected |
| Crews.AppendCrew | js/app.js:306-314 | the old list is kept as a prefix, and exactly one crew is added with the given name, location and next clean-up date, one member, and the id `NextId` of the old list (1 for an empty list, above every old id) |
| Crews.CreateCrew | js/app.js:295-315 | the store is unchanged if and only if the guard rejects the form; otherwise the crew list gains exactly the new crew with the given name, location and date, one member and the id `NextId` of the old list; no other key changes |
| Crews.SizeGuard | js/app.js:298-303 | with both texts filled, an integer size passes the guard exactly when it is not 0, so negative sizes pass |
| Crews.CreateCrewIgnoresSize | js/app.js:298-310 | two accepted forms that differ only in size store the same crew |
| Crews.CreateCrewKeepsIdsDistinct | js/app.js:305-315 | creating a crew keeps the ids pairwise distinct |
| Crews.FirstWithIdExists | js/app.js:327 | if some crew has the id, there is a first position holding it |
| Crews.Join | js/app.js:327-330 | none exactly when no crew has the id; otherwise the first crew with the id gains one member, and the list length and every other crew are unchanged |
| Crews.JoinCrew | js/app.js:325-336 | no match writes nothing; otherwise only the first matching crew changes, gaining one member; no other key changes |
| Crews.JoinCrewTwice | js/app.js:325-336 | two joins in a row add exactly two members to that crew and change nothing else |
| Crews.JoinCrewKeepsIds | js/app.js:325-331 | joining changes neither the list length nor any crew's id |
| StatsPanel.UpdateStats | js/app.js:390-398 | the crew counter is the crew list's length; each other counter is the stored field, or 0 when the field or the whole object is missing |
| StatsPanel.UpdateStatsIgnoresStoredCrewCount | js/app.js:391-397 | the stored `crews` field never affects the panel |
| StatsPanel.UpdateStatsAfterCreate | js/app.js:295-322 | an accepted form raises the crew counter by one and leaves the others; a rejected one changes nothing |
| StatsPanel.UpdateStatsAfterJoin | js/app.js:325-334 | joining leaves every counter as it was |
| StatsPanel.FirstRunPanel | js/app.js:41-58 | on an empty store, seeding then showing the panel gives 47, 1240, 2850 and 4 |
| Nav.UpdateActiveNavLink | js/app.js:102-119 | the set of links is unchanged |
| Nav.LinkActiveIffInView | js/app.js:104-116 | a section's link is active afterwards if and only if `scrollY + 100` lies in `[top, top + height)` of that section (the last one with that id) |
| Nav.UntouchedLinkKept | js/app.js:106-118 | a link that no section points at keeps its state |
| Nav.AtMostOneInView | js/app.js:112 | with sections stacked without overlap, at most one is in view at any scroll position |
| Nav.ContiguousIsStacked | js/app.js:112 | sections that each start where the previous one ends, with positive heights, do not overlap |
| Nav.SomeSectionInView | js/app.js:112 | contiguous sections covering the probe point have at least one section in view |
| Nav.AtMostOneLinkActive | js/app.js:104-116 | with stacked sections and distinct ids, after the update at most one section's link is active |
| Nav.SomeLinkActive | js/app.js:104-116 | with contiguous sections, distinct ids, a link per section and the probe point inside their span, after the update some section's link is active |
| Session.DefaultCrewsHealthy | js/app.js:42-47 | the seeded crews have distinct positive ids and at least one member each |
| Session.ApplyKeepsHealthy | js/app.js:295-336 | one create or join keeps the crew list healthy |
| Session.RunKeepsHealthy | js/app.js:295-336 | any sequence of creates and joins keeps the crew list healthy |
| Session.RunCrewCount | js/app.js:295-336 | the crew list grows by exactly the number of accepted forms |
| Session.SessionAfterSeeding | js/app.js:30-60 | after seeding, any session leaves healthy crews, and their number is the starting count (4 on first run) plus the accepted forms |

## Left out

- HTML building, `innerHTML`, toasts, modal attributes and event wiring are DOM side effects. `SelectBeach` returns the beach whose toast and dialog would appear.
- JSON encoding and decoding: the store holds already-decoded records.
- Storage.BeachesOf: a key holding a value of another kind reads as the empty list. For a list of crews, the page would use that list as it is and show crews as beaches. For a statistics object, `renderBeaches` throws a TypeError at `beaches.filter` before it writes the list, so the page keeps whatever list it showed before. On page load that throw comes from `initBeaches` inside `initApp`, and it stops the rest of start-up: the map placeholder, the crew list and form handler, the weather and the statistics panel are never set up. `selectBeach` throws at `beaches.find` and selects nothing. The model reads `[]` instead, so its search shows an empty list and nothing else is affected. Every operation keeps the store `WellTyped`, so these cases only arise from outside interference.
- Storage.CrewsOf: a key holding a value of another kind reads as the empty list. For a list of beaches, the page would use the beaches as crews, and a join would turn their missing `members` into NaN. For a statistics object, the page throws a TypeError at `crews.map` in `createCrew` or `crews.find` in `joinCrew` and writes nothing, whereas the model's `CreateCrew` replaces the object with a one-crew list.
- Storage.StatsOf: a list under the statistics key reads as `{}`. The page would read no counter from it and show 0 for each.
- Crews.NextId: ids are unbounded integers. The page's ids are doubles, and `max + 1` stops increasing at 2^53.
- Crews.Join: member counts are unbounded integers. The page's `members += 1` stops increasing at 2^53; Crews.JoinCrew and Crews.JoinCrewTwice share this.
- Text.LowerStr: folds only the ASCII letters A-Z. Full Unicode `toLowerCase`, which can also change a string's length, is not modelled.
- IntParsing.ParseInt: values are unbounded integers. Rounding to a double for values above 2^53, and `Infinity`, are not modelled; neither changes whether the guard passes.
- The `nextCleanup` date of a new crew depends on `Date.now()`, so it is a parameter of `CreateCrew`.
- Nav.UpdateActiveNavLink: its own contract states only that the set of links is unchanged. The per-link outcome is stated by Nav.LinkActiveIffInView and Nav.UntouchedLinkKept. Scroll and offset positions are whole numbers, not floating point. The map holds one link per section id, which is the link `querySelector` would find first. Section ids are assumed to need no CSS escaping: the page builds the selector from the raw id, so an id containing `"` or a line break makes `querySelector` throw, the pass stops there and every later section's link keeps its old state; an id containing `\` can make the selector match a link with a different `href`. The model updates the link of every section.
- `viewCrew` and `renderCrews` only display the crew list and are not part of this model.
- `debounce` and `setTimeout` are timer-based. Geolocation, lazy loading of images, service-worker registration, the keyboard shortcut and the global error handler are browser APIs with no logic of their own.
- `renderWeather` and `initMap` render fixed markup.

=== FILE: crews.dfy ===
/** The crew list operations: `createCrew` with its form validation and
    fresh-id rule, and `joinCrew`. */
module Crews {
  import opened Wrappers
  import opened Records
  import opened Storage
  import opened IntParsing
  import opened Seqs

  /** `Math.max(...crews.map(c => c.id), 0)`. */
  function MaxId(crews: seq<Crew>): (m: int)
    ensures m >= 0
    ensures forall c :: c in crews ==> c.id <= m
    ensures m == 0 || exists c :: c in crews && c.id == m
    decreases |crews|
  {
    if |crews| == 0 then 0
    else
      var rest := MaxId(crews[1..]);
      if crews[0].id > rest then crews[0].id else rest
  }

  /** The id a new crew receives: one more than the largest id, or 1. It is
      the least positive integer above every existing id. */
  function NextId(crews: seq<Crew>): (id: int)
    ensures id >= 1
    ensures forall c :: c in crews ==> c.id < id
    ensures id == 1 || exists c :: c in crews && c.id == id - 1
  {
    MaxId(crews) + 1
  }

  /** No two crews share an id. */
  predicate DistinctIds(crews: seq<Crew>) {
    forall i, j :: 0 <= i < j < |crews| ==> crews[i].id != crews[j].id
  }

  /** The three form fields as read from the page; `None` when the element
      is absent (`?.value` gives `undefined`). */
  datatype CrewForm = CrewForm(name: Option<string>, location: Option<string>, size: Option<string>)

  /** A text field is truthy: present and not the empty string. */
  predicate Filled(field: Option<string>) {
    field.Some? && field.value != ""
  }

  /** `parseInt` of the size field; `parseInt(undefined)` is NaN. */
  function SizeOf(form: CrewForm): Number {
    match form.size
    case None => NaN
    case Some(s) => ParseInt(s)
  }

  /** The guard `!name || !location || !size` does not fire: both texts are
      non-empty and the size parses to a number other than 0. */
  predicate FormComplete(form: CrewForm)
    ensures FormComplete(form) ==> form.name.Some? && form.name.value != ""
    ensures FormComplete(form) ==> form.location.Some? && form.location.value != ""
    ensures form.size.None? ==> !FormComplete(form)
    ensures form.size.Some? && TrimStart(form.size.value) == "" ==> !FormComplete(form)
    ensures form.size == Some("0") ==> !FormComplete(form)
  {
    ParseIntDecimalString(0);
    assert DecimalString(0) == "0";
    Filled(form.name) && Filled(form.location) && SizeOf(form).Int? && SizeOf(form).n != 0
  }

  /** The crew list with one new crew pushed at the end. The new crew starts
      with one member, whatever size was entered. */
  function AppendCrew(crews: seq<Crew>, name: string, location: string, nextCleanup: string): (r: seq<Crew>)
    ensures |r| == |crews| + 1 && r[..|crews|] == crews
    ensures r[|crews|].name == name && r[|crews|].location == location
    ensures r[|crews|].members == 1 && r[|crews|].nextCleanup == nextCleanup
    ensures r[|crews|].id == NextId(crews)
    ensures r[|crews|].id >= 1 && forall c :: c in crews ==> c.id < r[|crews|].id
    ensures crews == [] ==> r[|crews|].id == 1
  {
    crews + [Crew(NextId(crews), name, location, 1, nextCleanup)]
  }

  /** `createCrew`. An incomplete form writes nothing; a complete one stores
      the crew list with the new crew appended. `nextCleanup` is the date a
      week from now, which the page takes from the clock. */
  function CreateCrew(store: Store, form: CrewForm, nextCleanup: string): (r: Store)
    ensures r == store <==> !FormComplete(form)
    ensures FormComplete(form) ==>
              var before, after := CrewsOf(store), CrewsOf(r);
              && |after| == |before| + 1 && after[..|before|] == before
              && after[|before|].name == form.name.value
              && after[|before|].location == form.location.value
              && after[|before|].members == 1
              && after[|before|].nextCleanup == nextCleanup
              && after[|before|].id == NextId(before)
              && (before == [] ==> after[|before|].id == 1)
              && forall c :: c in before ==> c.id < after[|before|].id
    ensures SameExcept(store, r, CrewsKey)
    ensures WellTyped(store) ==> WellTyped(r)
  {
    if !FormComplete(form) then store
    else
      var crews := AppendCrew(CrewsOf(store), form.name.value, form.location.value, nextCleanup);
      CrewsOfWrite(store, crews);
      store[CrewsKey := CrewList(crews)]
  }

  /** A size field holding any integer numeral passes the guard exactly when
      the integer is not 0; in particular a negative size is accepted. */
  lemma SizeGuard(name: string, location: string, n: int)
    requires name != "" && location != ""
    ensures FormComplete(CrewForm(Some(name), Some(location), Some(DecimalString(n)))) <==> n != 0
  {
    ParseIntDecimalString(n);
  }

  /** The entered size has no effect on the crew that is stored. */
  lemma CreateCrewIgnoresSize(store: Store, form: CrewForm, other: CrewForm, nextCleanup: string)
    requires FormComplete(form) && FormComplete(other)
    requires form.name == other.name && form.location == other.location
    ensures CreateCrew(store, form, nextCleanup) == CreateCrew(store, other, nextCleanup)
  {
  }

  /** Creating a crew keeps the ids pairwise distinct. */
  lemma CreateCrewKeepsIdsDistinct(store: Store, form: CrewForm, nextCleanup: string)
    requires DistinctIds(CrewsOf(store))
    ensures DistinctIds(CrewsOf(CreateCrew(store, form, nextCleanup)))
  {
    var before, after := CrewsOf(store), CrewsOf(CreateCrew(store, form, nextCleanup));
    if FormComplete(form) {
      forall i, j | 0 <= i < j < |after|
        ensures after[i].id != after[j].id
      {
        assert after[..|before|][i] == after[i];
        if j < |before| {
          assert after[..|before|][j] == after[j];
        } else {
          assert before[i] in before;
        }
      }
    }
  }

  /** Position `i` holds the first crew with the given id. */
  predicate FirstWithId(crews: seq<Crew>, id: int, i: int) {
    0 <= i < |crews| && crews[i].id == id && forall j :: 0 <= j < i ==> crews[j].id != id
  }

  /** Some crew has the id exactly when there is a first one with it. */
  lemma FirstWithIdExists(crews: seq<Crew>, id: int)
    requires exists c :: c in crews && c.id == id
    ensures exists i :: FirstWithId(crews, id, i)
  {
    var f := Find(crews, (c: Crew) => c.id == id);
    assert FirstWithId(crews, id, f.value);
  }

  /** `after` is `before` with one more member at position `i` and nothing
      else changed. */
  predicate JoinedAt(before: seq<Crew>, after: seq<Crew>, i: int) {
    && |after| == |before|
    && 0 <= i < |before|
    && after[i] == before[i].(members := before[i].members + 1)
    && forall j :: 0 <= j < |before| && j != i ==> after[j] == before[j]
  }

  /** `crews.find(c => c.id === crewId)` followed by `crew.members += 1`;
      `None` when no crew has the id. */
  function Join(crews: seq<Crew>, id: int): (r: Option<seq<Crew>>)
    ensures r.None? <==> forall c :: c in crews ==> c.id != id
    ensures forall i :: FirstWithId(crews, id, i) ==> r.Some? && JoinedAt(crews, r.value, i)
  {
    match Find(crews, (c: Crew) => c.id == id)
    case None => None
    case Some(i) =>
      assert forall k :: FirstWithId(crews, id, k) ==> k == i;
      Some(crews[i := crews[i].(members := crews[i].members + 1)])
  }

  /** `joinCrew`: when a crew has the id, store the list with that crew's
      member count raised by one; otherwise write nothing. */
  function JoinCrew(store: Store, id: int): (r: Store)
    ensures (forall c :: c in CrewsOf(store) ==> c.id != id) ==> r == store
    ensures forall i :: FirstWithId(CrewsOf(store), id, i) ==> JoinedAt(CrewsOf(store), CrewsOf(r), i)
    ensures SameExcept(store, r, CrewsKey)
    ensures WellTyped(store) ==> WellTyped(r)
  {
    match Join(CrewsOf(store), id)
    case None => store
    case Some(crews) =>
      CrewsOfWrite(store, crews);
      store[CrewsKey := CrewList(crews)]
  }

  /** Joining the same crew twice in a row adds exactly two members to the
      first crew with that id and changes nothing else. */
  lemma JoinCrewTwice(store: Store, id: int, i: int)
    requires FirstWithId(CrewsOf(store), id, i)
    ensures var before, after := CrewsOf(store), CrewsOf(JoinCrew(JoinCrew(store, id), id));
      && |after| == |before|
      && after[i] == before[i].(members := before[i].members + 2)
      && forall j :: 0 <= j < |before| && j != i ==> after[j] == before[j]
  {
    var before := CrewsOf(store);
    var once := JoinCrew(store, id);
    var middle := CrewsOf(once);
    assert JoinedAt(before, middle, i);
    assert FirstWithId(middle, id, i) by {
      forall j | 0 <= j < i
        ensures middle[j].id != id
      {
        assert middle[j] == before[j];
      }
    }
  }

  /** Joining never changes any crew's id, so distinct ids stay distinct. */
  lemma JoinCrewKeepsIds(store: Store, id: int)
    ensures var before, after := CrewsOf(store), CrewsOf(JoinCrew(store, id));
      |after| == |before| && forall j :: 0 <= j < |before| ==> after[j].id == before[j].id
  {
    var before := CrewsOf(store);
    match Find(before, (c: Crew) => c.id == id)
    case None =>
    case Some(i) =>
      assert FirstWithId(before, id, i);
  }
}

=== FILE: int_parsing.dfy ===
/** JavaScript's global `parseInt(string)` called without a radix, as the
    crew form applies it to the size field: leading white space is skipped,
    one sign is read, a `0x`/`0X` prefix switches to base 16, and the longest
    run of digits that follows is read. No digits at all gives NaN. */
module IntParsing {

  /** The value `parseInt` produces: NaN or a mathematical integer. */
  datatype Number = NaN | Int(n: int)

  /** The StrWhiteSpaceChar set of ECMAScript: WhiteSpace (tab, vertical tab,
      form feed, the byte-order mark and every space separator) and
      LineTerminator (line feed, carriage return, U+2028, U+2029). */
  predicate IsStrWhiteSpace(c: char) {
    || c == '\U{0009}' || c == '\U{000A}' || c == '\U{000B}' || c == '\U{000C}'
    || c == '\U{000D}' || c == '\U{0020}' || c == '\U{00A0}' || c == '\U{1680}'
    || ('\U{2000}' <= c <= '\U{200A}')
    || c == '\U{2028}' || c == '\U{2029}' || c == '\U{202F}' || c == '\U{205F}'
    || c == '\U{3000}' || c == '\U{FEFF}'
  }

  /** `s` with its leading white space removed. */
  function TrimStart(s: string): (r: string)
    ensures |r| <= |s| && r == s[|s| - |r|..]
    ensures forall i :: 0 <= i < |s| - |r| ==> IsStrWhiteSpace(s[i])
    ensures |r| > 0 ==> !IsStrWhiteSpace(r[0])
    decreases |s|
  {
    if |s| > 0 && IsStrWhiteSpace(s[0]) then TrimStart(s[1..]) else s
  }

  /** The value of a digit character: 0-9, then a/A = 10 up to z/Z = 35. */
  function DigitValue(c: char): (v: nat)
    ensures '0' <= c <= '9' ==> v < 10
  {
    if '0' <= c <= '9' then c as int - '0' as int
    else if 'a' <= c <= 'z' then c as int - 'a' as int + 10
    else if 'A' <= c <= 'Z' then c as int - 'A' as int + 10
    else 36
  }

  predicate IsDigit(c: char, radix: nat) {
    DigitValue(c) < radix
  }

  /** The longest prefix of `s` made of digits of the given radix. */
  function DigitPrefix(s: string, radix: nat): (z: string)
    ensures |z| <= |s| && z == s[..|z|]
    ensures forall i :: 0 <= i < |z| ==> IsDigit(z[i], radix)
    ensures |z| < |s| ==> !IsDigit(s[|z|], radix)
    decreases |s|
  {
    if |s| > 0 && IsDigit(s[0], radix) then [s[0]] + DigitPrefix(s[1..], radix) else []
  }

  /** The number a run of digits denotes, most significant digit first. */
  function DigitsValue(z: string, radix: nat): nat
    decreases |z|
  {
    if |z| == 0 then 0 else DigitsValue(z[..|z| - 1], radix) * radix + DigitValue(z[|z| - 1])
  }

  /** `s` starts with `0x` or `0X`. */
  predicate HasHexPrefix(s: string) {
    |s| >= 2 && s[0] == '0' && (s[1] == 'x' || s[1] == 'X')
  }

  /** The radix `parseInt` picks when none is given: 16 behind a hex
      prefix, 10 otherwise. */
  function Radix(u: string): (radix: nat)
    ensures radix == 10 || radix == 16
  {
    if HasHexPrefix(u) then 16 else 10
  }

  /** The run of digits `parseInt` reads from a numeral without its sign:
      the longest run in the chosen radix, after the hex prefix if any. */
  function NumeralDigits(u: string): (z: string)
    ensures forall i :: 0 <= i < |z| ==> IsDigit(z[i], Radix(u))
  {
    DigitPrefix(if HasHexPrefix(u) then u[2..] else u, Radix(u))
  }

  /** The digits after an optional sign: base 16 behind a hex prefix,
      base 10 otherwise; NaN when no digit follows. */
  function ParseUnsigned(u: string): (r: Number)
    ensures r.Int? ==> r.n >= 0
    ensures r.Int? ==> (r.n == 0 <==> forall i :: 0 <= i < |NumeralDigits(u)| ==> NumeralDigits(u)[i] == '0')
  {
    var z := NumeralDigits(u);
    DigitsValueZero(z, Radix(u));
    if |z| == 0 then NaN else Int(DigitsValue(z, Radix(u)))
  }

  /** A numeral whose leading white space is already gone, without its one
      optional `+` or `-`. */
  function Unsigned(t: string): (u: string)
    ensures u == t || (|t| > 0 && (t[0] == '-' || t[0] == '+') && u == t[1..])
  {
    if |t| > 0 && (t[0] == '-' || t[0] == '+') then t[1..] else t
  }

  /** A string whose leading white space is already gone: one optional
      `+` or `-`, then the unsigned part. */
  function ParseTrimmed(s: string): (r: Number)
  {
    var negative := |s| > 0 && s[0] == '-';
    match ParseUnsigned(Unsigned(s))
    case NaN => NaN
    case Int(m) => if negative then Int(0 - m) else Int(m)
  }

  /** `parseInt(input)` with the radix left undefined. A zero result is 0
      whatever the sign, as `-0` and `0` are the same falsy value to the app.
      The value is zero exactly when every digit read is `0`, so `"00"`,
      `"-0"`, `"0x0"` and `"0.5"` all give 0. */
  function ParseInt(input: string): (r: Number)
    ensures var u := Unsigned(TrimStart(input));
            r.NaN? <==> if HasHexPrefix(u) then |u| == 2 || !IsDigit(u[2], 16) else |u| == 0 || !IsDigit(u[0], 10)
    ensures r.Int? && r.n < 0 ==> var t := TrimStart(input); |t| > 0 && t[0] == '-'
    ensures r.Int? && r.n > 0 ==> var t := TrimStart(input); |t| == 0 || t[0] != '-'
    ensures r.Int? ==> var z := NumeralDigits(Unsigned(TrimStart(input)));
            (r.n == 0 <==> forall i :: 0 <= i < |z| ==> z[i] == '0')
    ensures r.Int? ==> var u := Unsigned(TrimStart(input));
            (if r.n < 0 then -r.n else r.n) == DigitsValue(NumeralDigits(u), Radix(u))
  {
    ParseTrimmed(TrimStart(input))
  }

  /** A sum `a * radix + d` of naturals is zero exactly when both parts are. */
  lemma ShiftAddZero(a: nat, radix: nat, d: nat)
    requires radix >= 1
    ensures a * radix + d == 0 <==> a == 0 && d == 0
  {
    if a >= 1 {
      assert a * radix >= radix;
    }
  }

  /** A run of digits denotes zero exactly when every digit is `0`. */
  lemma {:induction false} DigitsValueZero(z: string, radix: nat)
    requires radix >= 2 && forall i :: 0 <= i < |z| ==> IsDigit(z[i], radix)
    ensures DigitsValue(z, radix) == 0 <==> forall i :: 0 <= i < |z| ==> z[i] == '0'
    decreases |z|
  {
    if |z| > 0 {
      var init, last := z[..|z| - 1], z[|z| - 1];
      assert forall i :: 0 <= i < |init| ==> init[i] == z[i];
      DigitsValueZero(init, radix);
      ShiftAddZero(DigitsValue(init, radix), radix, DigitValue(last));
      assert (forall i :: 0 <= i < |z| ==> z[i] == '0')
         <==> (forall i :: 0 <= i < |init| ==> init[i] == '0') && last == '0';
    }
  }

  /** The decimal digit character for 0..9. */
  function DigitChar(d: nat): (c: char)
    requires d < 10
    ensures '0' <= c <= '9' && DigitValue(c) == d
  {
    ('0' as int + d) as char
  }

  /** The decimal numeral of a natural number, without leading zeros. */
  function Digits(n: nat): (s: string)
    ensures |s| >= 1
    ensures forall i :: 0 <= i < |s| ==> '0' <= s[i] <= '9'
    decreases n
  {
    if n < 10 then [DigitChar(n)] else Digits(n / 10) + [DigitChar(n % 10)]
  }

  /** The decimal numeral of an integer, with a leading `-` when negative
      (what `String(n)` gives for a safe integer). */
  function DecimalString(n: int): (s: string)
  {
    if n < 0 then "-" + Digits(-n) else Digits(n)
  }

  lemma {:induction false} DigitsValueOfDigits(n: nat)
    ensures DigitsValue(Digits(n), 10) == n
    decreases n
  {
    if n >= 10 {
      var s := Digits(n);
      DigitsValueOfDigits(n / 10);
      assert s[..|s| - 1] == Digits(n / 10);
      assert s[|s| - 1] == DigitChar(n % 10);
    }
  }

  lemma {:induction false} DigitPrefixOfDigits(s: string)
    requires forall i :: 0 <= i < |s| ==> '0' <= s[i] <= '9'
    ensures DigitPrefix(s, 10) == s
    decreases |s|
  {
    if |s| > 0 {
      DigitPrefixOfDigits(s[1..]);
      assert [s[0]] + s[1..] == s;
    }
  }

  lemma ParseUnsignedDigits(n: nat)
    ensures ParseUnsigned(Digits(n)) == Int(n)
  {
    var d := Digits(n);
    assert !HasHexPrefix(d) by {
      if |d| >= 2 {
        assert '0' <= d[1] <= '9';
      }
    }
    DigitPrefixOfDigits(d);
    DigitsValueOfDigits(n);
  }

  /** Reading back the decimal numeral of any integer gives that integer:
      `parseInt(String(n)) == n`. */
  lemma ParseIntDecimalString(n: int)
    ensures ParseInt(DecimalString(n)) == Int(n)
  {
    var s := DecimalString(n);
    if n < 0 {
      var d := Digits(-n);
      assert s == ['-'] + d;
      assert !IsStrWhiteSpace(s[0]);
      assert TrimStart(s) == s;
      assert s[1..] == d;
      ParseUnsignedDigits(-n);
    } else {
      assert '0' <= s[0] <= '9';
      assert !IsStrWhiteSpace(s[0]);
      assert TrimStart(s) == s;
      ParseUnsignedDigits(n);
    }
  }

  lemma {:induction false} DigitPrefixStops(d: string, t: string, radix: nat)
    requires forall i :: 0 <= i < |d| ==> IsDigit(d[i], radix)
    requires |t| == 0 || !IsDigit(t[0], radix)
    ensures DigitPrefix(d + t, radix) == d
    decreases |d|
  {
    if |d| == 0 {
      assert d + t == t;
    } else {
      assert (d + t)[1..] == d[1..] + t;
      DigitPrefixStops(d[1..], t, radix);
    }
  }

  /** Reading stops at the first character that is not a digit: whatever
      follows a decimal numeral is ignored, unless the two together start
      with a hex prefix. */
  lemma ParseUnsignedStopsAtNonDigit(d: string, t: string)
    requires |d| > 0 && forall i :: 0 <= i < |d| ==> '0' <= d[i] <= '9'
    requires |t| == 0 || !('0' <= t[0] <= '9')
    requires !HasHexPrefix(d + t)
    ensures ParseUnsigned(d + t) == Int(DigitsValue(d, 10))
  {
    DigitPrefixStops(d, t, 10);
  }

  /** Without a digit where the numeral should start the result is NaN. */
  lemma ParseUnsignedNoDigits(u: string)
    requires |u| == 0 || !('0' <= u[0] <= '9')
    ensures ParseUnsigned(u) == NaN
  {
  }

  /** White space in front of the numeral is ignored. */
  lemma ParseIntSkipsLeadingSpace(ws: string, s: string)
    requires forall i :: 0 <= i < |ws| ==> IsStrWhiteSpace(ws[i])
    requires |s| > 0 ==> !IsStrWhiteSpace(s[0])
    ensures ParseInt(ws + s) == ParseInt(s)
  {
    TrimStartAfterSpace(ws, s);
  }

  lemma {:induction false} TrimStartAfterSpace(ws: string, s: string)
    requires forall i :: 0 <= i < |ws| ==> IsStrWhiteSpace(ws[i])
    requires |s| > 0 ==> !IsStrWhiteSpace(s[0])
    ensures TrimStart(ws + s) == s
    decreases |ws|
  {
    if |ws| > 0 {
      assert (ws + s)[1..] == ws[1..] + s;
      TrimStartAfterSpace(ws[1..], s);
    } else {
      assert ws + s == s;
    }
  }
}

=== FILE: nav.dfy ===
/** `updateActiveNavLink`: which navigation link carries the `active` class
    for the current scroll position. Positions are whole pixels. */
module Nav {

  /** How far below the top of the viewport the probe point sits. */
  const ProbeOffset: int := 100

  /** A page section with an id: its `offsetTop`, measured from its offset
      parent, and its `offsetHeight`. */
  datatype Section = Section(id: string, top: int, height: int)

  /** The probe point `scrollY + 100` lies in `[top, top + height)`. */
  predicate InView(scrollY: int, s: Section) {
    scrollY + ProbeOffset >= s.top && scrollY + ProbeOffset < s.top + s.height
  }

  /** No later section shares the id of the section at position `i`. */
  predicate LastWithId(sections: seq<Section>, i: int)
    requires 0 <= i < |sections|
  {
    forall j :: i < j < |sections| ==> sections[j].id != sections[i].id
  }

  /** One pass over the sections in document order. `links` maps the id each
      existing nav link points at to whether it is active; a section without
      a link is skipped. A later section with the same id overrides an
      earlier one. */
  function UpdateActiveNavLink(sections: seq<Section>, scrollY: int, links: map<string, bool>): (r: map<string, bool>)
    ensures r.Keys == links.Keys
    decreases |sections|
  {
    if |sections| == 0 then links
    else
      var n := |sections| - 1;
      var prev := UpdateActiveNavLink(sections[..n], scrollY, links);
      if sections[n].id in prev then prev[sections[n].id := InView(scrollY, sections[n])] else prev
  }

  /** A link no section points at keeps its state. */
  lemma {:induction false} UntouchedLinkKept(sections: seq<Section>, scrollY: int, links: map<string, bool>, id: string)
    requires id in links
    requires forall i :: 0 <= i < |sections| ==> sections[i].id != id
    ensures UpdateActiveNavLink(sections, scrollY, links)[id] == links[id]
    decreases |sections|
  {
    if |sections| > 0 {
      var n := |sections| - 1;
      assert forall i :: 0 <= i < n ==> sections[..n][i] == sections[i];
      UntouchedLinkKept(sections[..n], scrollY, links, id);
    }
  }

  /** A section's link is active afterwards exactly when the probe point
      lies inside that section (the last section with the id, should ids
      repeat). */
  lemma {:induction false} LinkActiveIffInView(sections: seq<Section>, scrollY: int, links: map<string, bool>, i: int)
    requires 0 <= i < |sections| && sections[i].id in links
    requires LastWithId(sections, i)
    ensures UpdateActiveNavLink(sections, scrollY, links)[sections[i].id] == InView(scrollY, sections[i])
    decreases |sections|
  {
    var n := |sections| - 1;
    if i < n {
      var prefix := sections[..n];
      assert forall k :: 0 <= k < n ==> prefix[k] == sections[k];
      assert LastWithId(prefix, i);
      LinkActiveIffInView(prefix, scrollY, links, i);
    }
  }

  /** Sections stacked top to bottom without overlap. */
  predicate Stacked(sections: seq<Section>) {
    forall i, j :: 0 <= i < j < |sections| ==> sections[i].top + sections[i].height <= sections[j].top
  }

  /** Each section starts where the previous one ends. */
  predicate Contiguous(sections: seq<Section>) {
    && (forall i :: 0 <= i < |sections| ==> sections[i].height > 0)
    && (forall i :: 0 <= i < |sections| - 1 ==> sections[i + 1].top == sections[i].top + sections[i].height)
  }

  /** With stacked sections at most one is in view at any scroll position. */
  lemma AtMostOneInView(sections: seq<Section>, scrollY: int, i: int, j: int)
    requires Stacked(sections)
    requires 0 <= i < |sections| && 0 <= j < |sections|
    requires InView(scrollY, sections[i]) && InView(scrollY, sections[j])
    ensures i == j
  {
  }

  /** Contiguous sections with positive heights are stacked. */
  lemma {:induction false} ContiguousIsStacked(sections: seq<Section>)
    requires Contiguous(sections)
    ensures Stacked(sections)
    decreases |sections|
  {
    if |sections| > 1 {
      var rest := sections[1..];
      assert Contiguous(rest) by {
        assert forall i :: 0 <= i < |rest| ==> rest[i] == sections[i + 1];
      }
      ContiguousIsStacked(rest);
      forall i, j | 0 <= i < j < |sections|
        ensures sections[i].top + sections[i].height <= sections[j].top
      {
        if i > 0 {
          assert rest[i - 1] == sections[i] && rest[j - 1] == sections[j];
        } else if j > 1 {
          assert rest[0] == sections[1] && rest[j - 1] == sections[j];
        }
      }
    }
  }

  /** When contiguous sections cover the probe point, at least one of them
      is in view. */
  lemma {:induction false} SomeSectionInView(sections: seq<Section>, scrollY: int)
    requires Contiguous(sections) && |sections| > 0
    requires sections[0].top <= scrollY + ProbeOffset
    requires scrollY + ProbeOffset < sections[|sections| - 1].top + sections[|sections| - 1].height
    ensures exists i :: 0 <= i < |sections| && InView(scrollY, sections[i])
    decreases |sections|
  {
    if !InView(scrollY, sections[0]) {
      var rest := sections[1..];
      assert forall i :: 0 <= i < |rest| ==> rest[i] == sections[i + 1];
      SomeSectionInView(rest, scrollY);
      var k :| 0 <= k < |rest| && InView(scrollY, rest[k]);
      assert InView(scrollY, sections[k + 1]);
    }
  }

  /** No two sections share an id. */
  predicate DistinctSectionIds(sections: seq<Section>) {
    forall i, j :: 0 <= i < j < |sections| ==> sections[i].id != sections[j].id
  }

  /** On a page whose sections are stacked and have distinct ids, at most
      one section's link is active after the update. */
  lemma AtMostOneLinkActive(sections: seq<Section>, scrollY: int, links: map<string, bool>, i: int, j: int)
    requires Stacked(sections) && DistinctSectionIds(sections)
    requires 0 <= i < |sections| && sections[i].id in links
    requires 0 <= j < |sections| && sections[j].id in links
    ensures var r := UpdateActiveNavLink(sections, scrollY, links);
            r[sections[i].id] && r[sections[j].id] ==> i == j
  {
    LinkActiveIffInView(sections, scrollY, links, i);
    LinkActiveIffInView(sections, scrollY, links, j);
    var r := UpdateActiveNavLink(sections, scrollY, links);
    if r[sections[i].id] && r[sections[j].id] {
      AtMostOneInView(sections, scrollY, i, j);
    }
  }

  /** On a page of contiguous sections with distinct ids, each with a link,
      whose span covers the probe point, some section's link is active after
      the update; together with `AtMostOneLinkActive`, exactly one is. */
  lemma SomeLinkActive(sections: seq<Section>, scrollY: int, links: map<string, bool>)
    requires Contiguous(sections) && DistinctSectionIds(sections) && |sections| > 0
    requires forall k :: 0 <= k < |sections| ==> sections[k].id in links
    requires sections[0].top <= scrollY + ProbeOffset
    requires scrollY + ProbeOffset < sections[|sections| - 1].top + sections[|sections| - 1].height
    ensures exists k :: 0 <= k < |sections| && UpdateActiveNavLink(sections, scrollY, links)[sections[k].id]
  {
    SomeSectionInView(sections, scrollY);
    var k :| 0 <= k < |sections| && InView(scrollY, sections[k]);
    LinkActiveIffInView(sections, scrollY, links, k);
  }
}

=== FILE: records.dfy ===
/** The records the app keeps in the browser's persisted store. */
module Records {
  import opened Wrappers

  datatype Difficulty = Easy | Moderate | Hard

  /** A beach listed in the search section. `icon` is an emoji string. */
  datatype Beach = Beach(
    id: int,
    name: string,
    location: string,
    icon: string,
    difficulty: Difficulty,
    cleanups: int)

  /** A volunteer crew. `nextCleanup` is an ISO date (`YYYY-MM-DD`). */
  datatype Crew = Crew(
    id: int,
    name: string,
    location: string,
    members: int,
    nextCleanup: string)

  /** The aggregate counters. Every field is optional, because the panel reads
      them from whatever object the store holds (`{}` when none). */
  datatype Stats = Stats(
    cleanups: Option<int>,
    volunteers: Option<int>,
    trash: Option<int>,
    crews: Option<int>)

  /** The empty object `{}`: no counter present. */
  const NoStats := Stats(None, None, None, None)
}

=== FILE: search.dfy ===
/** The beach search of `renderBeaches` and the beach lookup of
    `selectBeach`. */
module Search {
  import opened Wrappers
  import opened Text
  import opened Records
  import opened Storage
  import opened Seqs

  /** `searchInput?.value.toLowerCase() || ''`: the lower-cased contents of
      the search box, or the empty term when the box is absent. */
  function SearchTerm(input: Option<string>): (t: string)
    ensures input.None? ==> t == ""
    ensures input.Some? ==> |t| == |input.value|
    ensures input.Some? ==> forall i :: 0 <= i < |t| ==> t[i] == Lower(input.value[i])
    ensures forall i :: 0 <= i < |t| ==> !IsUpper(t[i])
  {
    match input
    case None => ""
    case Some(v) => LowerStr(v)
  }

  /** The filter predicate: the lower-cased name or the lower-cased location
      includes the term. */
  predicate Matches(b: Beach, term: string)
    ensures Matches(b, term) <==>
      (exists i :: OccursAt(LowerStr(b.name), term, i)) || (exists i :: OccursAt(LowerStr(b.location), term, i))
    ensures term == "" ==> Matches(b, term)
  {
    Contains(LowerStr(b.name), term) || Contains(LowerStr(b.location), term)
  }

  /** `beaches.filter(...)`: walk the list front to back, appending each
      beach that matches. */
  function Filter(bs: seq<Beach>, term: string): (r: seq<Beach>)
    ensures |r| <= |bs|
    ensures forall b :: b in r ==> b in bs && Matches(b, term)
    ensures forall b :: b in bs && Matches(b, term) ==> b in r
    decreases |bs|
  {
    if |bs| == 0 then []
    else
      var last := bs[|bs| - 1];
      Filter(bs[..|bs| - 1], term) + (if Matches(last, term) then [last] else [])
  }

  /** The positions of the matching beaches, in increasing order. */
  function MatchingIndices(bs: seq<Beach>, term: string): (idx: seq<nat>)
    ensures forall k :: 0 <= k < |idx| ==> idx[k] < |bs|
    decreases |bs|
  {
    if |bs| == 0 then []
    else MatchingIndices(bs[..|bs| - 1], term) + (if Matches(bs[|bs| - 1], term) then [|bs| - 1] else [])
  }

  /** The matching positions are listed in strictly increasing order, and a
      position is listed if and only if the beach there matches. */
  lemma {:induction false} MatchingIndicesExact(bs: seq<Beach>, term: string)
    ensures forall k, l :: 0 <= k < l < |MatchingIndices(bs, term)| ==>
              MatchingIndices(bs, term)[k] < MatchingIndices(bs, term)[l]
    ensures forall i :: 0 <= i < |bs| ==> (i in MatchingIndices(bs, term) <==> Matches(bs[i], term))
    decreases |bs|
  {
    if |bs| > 0 {
      var n := |bs| - 1;
      var prefix := bs[..n];
      MatchingIndicesExact(prefix, term);
      var idx0 := MatchingIndices(prefix, term);
      assert forall i :: 0 <= i < n ==> prefix[i] == bs[i];
      if !Matches(bs[n], term) {
        assert n !in idx0;
      }
    }
  }

  /** The filter's result is the list read off at the matching positions. */
  lemma {:induction false} FilterAtMatchingIndices(bs: seq<Beach>, term: string)
    ensures |Filter(bs, term)| == |MatchingIndices(bs, term)|
    ensures forall k :: 0 <= k < |Filter(bs, term)| ==>
              Filter(bs, term)[k] == bs[MatchingIndices(bs, term)[k]]
    decreases |bs|
  {
    if |bs| > 0 {
      var n := |bs| - 1;
      var prefix := bs[..n];
      FilterAtMatchingIndices(prefix, term);
      var r0, idx0 := Filter(prefix, term), MatchingIndices(prefix, term);
      forall k | 0 <= k < |r0|
        ensures r0[k] == bs[idx0[k]]
      {
        assert prefix[idx0[k]] == bs[idx0[k]];
      }
    }
  }

  /** The filter keeps exactly the matching beaches, in their original order:
      its result lists `bs` at a strictly increasing run of positions, and a
      position is on that run if and only if the beach there matches. */
  lemma FilterSelectsExactly(bs: seq<Beach>, term: string)
    ensures var r, idx := Filter(bs, term), MatchingIndices(bs, term);
      && |r| == |idx|
      && (forall k :: 0 <= k < |r| ==> r[k] == bs[idx[k]])
      && (forall k, l :: 0 <= k < l < |idx| ==> idx[k] < idx[l])
      && (forall i :: 0 <= i < |bs| ==> (i in idx <==> Matches(bs[i], term)))
  {
    MatchingIndicesExact(bs, term);
    FilterAtMatchingIndices(bs, term);
  }

  /** The empty term matches every beach, so the filter keeps the whole list. */
  lemma {:induction false} FilterEmptyTerm(bs: seq<Beach>)
    ensures Filter(bs, "") == bs
    decreases |bs|
  {
    if |bs| > 0 {
      var n := |bs| - 1;
      FilterEmptyTerm(bs[..n]);
      ContainsEmpty(LowerStr(bs[n].name));
      assert bs[..n] + [bs[n]] == bs;
    }
  }

  /** A beach that matches a term also matches every term inside it. */
  lemma MatchesWeaker(b: Beach, term: string, inner: string)
    requires Contains(term, inner)
    requires Matches(b, term)
    ensures Matches(b, inner)
  {
    if Contains(LowerStr(b.name), term) {
      ContainsTransitive(LowerStr(b.name), term, inner);
    } else {
      ContainsTransitive(LowerStr(b.location), term, inner);
    }
  }

  /** Filtering a list with one more beach at the end. */
  lemma FilterSnoc(bs: seq<Beach>, b: Beach, term: string)
    ensures Filter(bs + [b], term) == Filter(bs, term) + (if Matches(b, term) then [b] else [])
  {
    assert (bs + [b])[..|bs|] == bs;
  }

  /** Searching for a longer term is the same as searching again among the
      results of a term it contains. */
  lemma {:induction false} FilterRefines(bs: seq<Beach>, term: string, inner: string)
    requires Contains(term, inner)
    ensures Filter(Filter(bs, inner), term) == Filter(bs, term)
    decreases |bs|
  {
    if |bs| > 0 {
      var n := |bs| - 1;
      var prefix, last := bs[..n], bs[n];
      assert bs == prefix + [last];
      FilterRefines(prefix, term, inner);
      var kept := Filter(prefix, inner);
      FilterSnoc(prefix, last, inner);
      FilterSnoc(prefix, last, term);
      if Matches(last, inner) {
        FilterSnoc(kept, last, term);
      } else {
        assert !Matches(last, term) by {
          if Matches(last, term) {
            MatchesWeaker(last, term, inner);
          }
        }
        assert Filter(bs, inner) == kept;
        assert Filter(bs, term) == Filter(prefix, term);
      }
    }
  }

  /** `renderBeaches`: the beaches on display for the current search box. */
  function RenderBeaches(store: Store, input: Option<string>): (r: seq<Beach>)
    ensures forall b :: b in r ==> b in BeachesOf(store) && Matches(b, SearchTerm(input))
    ensures forall b :: b in BeachesOf(store) && Matches(b, SearchTerm(input)) ==> b in r
  {
    Filter(BeachesOf(store), SearchTerm(input))
  }

  /** An absent or empty search box shows every stored beach. */
  lemma RenderBeachesEmptySearch(store: Store, input: Option<string>)
    requires input.None? || input == Some("")
    ensures RenderBeaches(store, input) == BeachesOf(store)
  {
    FilterEmptyTerm(BeachesOf(store));
  }

  /** The search ignores the case of ASCII letters in what was typed. */
  lemma RenderBeachesIgnoresCase(store: Store, typed: string)
    ensures RenderBeaches(store, Some(typed)) == RenderBeaches(store, Some(LowerStr(typed)))
  {
    LowerStrIdempotent(typed);
  }

  /** Typing more characters never brings a beach back: the new results are
      the old results filtered again. */
  lemma RenderBeachesTypingNarrows(store: Store, typed: string, more: string)
    ensures RenderBeaches(store, Some(typed + more))
         == Filter(RenderBeaches(store, Some(typed)), SearchTerm(Some(typed + more)))
  {
    var long, short := LowerStr(typed + more), LowerStr(typed);
    assert long[..|short|] == short;
    assert OccursAt(long, short, 0);
    FilterRefines(BeachesOf(store), long, short);
  }

  /** `beaches.find(b => b.id === beachId)`. */
  function FindBeach(bs: seq<Beach>, id: int): (r: Option<Beach>)
    ensures r.Some? <==> exists i :: 0 <= i < |bs| && bs[i].id == id
    ensures r.Some? ==> exists i :: 0 <= i < |bs| && bs[i] == r.value && r.value.id == id
                                   && forall j :: 0 <= j < i ==> bs[j].id != id
  {
    match Find(bs, (b: Beach) => b.id == id)
    case None => None
    case Some(i) => Some(bs[i])
  }

  /** `selectBeach`: the beach whose selection opens the crew dialog, or
      `None` when no stored beach has the id (nothing happens then). */
  function SelectBeach(store: Store, id: int): (r: Option<Beach>)
    ensures r.Some? <==> exists b :: b in BeachesOf(store) && b.id == id
    ensures r.Some? ==> r.value in BeachesOf(store) && r.value.id == id
    ensures r.Some? ==> exists i :: 0 <= i < |BeachesOf(store)| && BeachesOf(store)[i] == r.value
                                   && forall j :: 0 <= j < i ==> BeachesOf(store)[j].id != id
  {
    FindBeach(BeachesOf(store), id)
  }
}

=== FILE: seqs.dfy ===
/** Generic sequence helpers shared by the beach and crew lookups. */
module Seqs {
  import opened Wrappers

  /** The index of the first element satisfying `p`, in the manner of
      JavaScript's `Array.prototype.find`: the scan stops at the first hit. */
  function Find<T>(xs: seq<T>, p: T -> bool): (r: Option<nat>)
    ensures r.Some? ==> r.value < |xs| && p(xs[r.value])
    ensures r.Some? ==> forall j :: 0 <= j < r.value ==> !p(xs[j])
    ensures r.None? <==> forall j :: 0 <= j < |xs| ==> !p(xs[j])
    decreases |xs|
  {
    if |xs| == 0 then None
    else if p(xs[0]) then Some(0)
    else
      match Find(xs[1..], p)
      case None => None
      case Some(i) =>
        assert xs[1..][i] == xs[i + 1];
        Some(i + 1)
  }
}

=== FILE: session.dfy ===
/** A session of crew actions on the store after seeding: the crew list
    stays healthy (distinct positive ids, at least one member each) and its
    length counts the crews created. */
module Session {
  import opened Records
  import opened Storage
  import opened Crews

  /** A submitted crew form or a press of a crew's Join button. */
  datatype Action =
    | CreateAction(form: CrewForm, nextCleanup: string)
    | JoinAction(crewId: int)

  function Apply(store: Store, a: Action): Store {
    match a
    case CreateAction(form, nextCleanup) => CreateCrew(store, form, nextCleanup)
    case JoinAction(id) => JoinCrew(store, id)
  }

  /** The actions applied one after another, first to last. */
  function Run(store: Store, actions: seq<Action>): Store
    decreases |actions|
  {
    if |actions| == 0 then store else Run(Apply(store, actions[0]), actions[1..])
  }

  /** How many of the actions submit a form that passes the guard. */
  function Creations(actions: seq<Action>): (n: nat)
    ensures n <= |actions|
    decreases |actions|
  {
    if |actions| == 0 then 0
    else (if actions[0].CreateAction? && FormComplete(actions[0].form) then 1 else 0) + Creations(actions[1..])
  }

  /** Ids are distinct and positive, and every crew has a member. */
  predicate Healthy(crews: seq<Crew>) {
    DistinctIds(crews) && forall c :: c in crews ==> c.id >= 1 && c.members >= 1
  }

  lemma DefaultCrewsHealthy()
    ensures Healthy(DefaultCrews)
  {
  }

  lemma ApplyKeepsHealthy(store: Store, a: Action)
    requires Healthy(CrewsOf(store))
    ensures Healthy(CrewsOf(Apply(store, a)))
  {
    var before, after := CrewsOf(store), CrewsOf(Apply(store, a));
    match a
    case CreateAction(form, nextCleanup) =>
      CreateCrewKeepsIdsDistinct(store, form, nextCleanup);
      if FormComplete(form) {
        forall c | c in after
          ensures c.id >= 1 && c.members >= 1
        {
          var k :| 0 <= k < |after| && after[k] == c;
          if k < |before| {
            assert after[..|before|][k] == c;
          }
        }
      }
    case JoinAction(id) =>
      JoinCrewKeepsIds(store, id);
      match Join(before, id)
      case None =>
      case Some(_) =>
        FirstWithIdExists(before, id);
        var i :| FirstWithId(before, id, i);
        assert JoinedAt(before, after, i);
        forall c | c in after
          ensures c.id >= 1 && c.members >= 1
        {
          var k :| 0 <= k < |after| && after[k] == c;
          assert before[k] in before;
        }
  }

  /** Every session keeps a healthy crew list healthy. */
  lemma {:induction false} RunKeepsHealthy(store: Store, actions: seq<Action>)
    requires Healthy(CrewsOf(store))
    ensures Healthy(CrewsOf(Run(store, actions)))
    decreases |actions|
  {
    if |actions| > 0 {
      ApplyKeepsHealthy(store, actions[0]);
      RunKeepsHealthy(Apply(store, actions[0]), actions[1..]);
    }
  }

  /** The crew list grows by one for each accepted form and by nothing else. */
  lemma {:induction false} RunCrewCount(store: Store, actions: seq<Action>)
    ensures |CrewsOf(Run(store, actions))| == |CrewsOf(store)| + Creations(actions)
    decreases |actions|
  {
    if |actions| > 0 {
      if actions[0].JoinAction? {
        JoinCrewKeepsIds(store, actions[0].crewId);
      }
      RunCrewCount(Apply(store, actions[0]), actions[1..]);
    }
  }

  /** Starting from a store whose crew list is missing (seeded then with the
      defaults) or healthy, any session leaves a healthy crew list. */
  lemma SessionAfterSeeding(store: Store, actions: seq<Action>)
    requires WellTyped(store)
    requires !Present(store, CrewsKey) || Healthy(CrewsOf(store))
    ensures Healthy(CrewsOf(Run(InitLocalStorage(store), actions)))
    ensures |CrewsOf(Run(InitLocalStorage(store), actions))|
         == (if Present(store, CrewsKey) then |CrewsOf(store)| else 4) + Creations(actions)
  {
    InitLocalStorageReads(store);
    RunKeepsHealthy(InitLocalStorage(store), actions);
    RunCrewCount(InitLocalStorage(store), actions);
  }
}

=== FILE: stats_panel.dfy ===
/** `updateStats`: the four counters shown in the statistics panel. */
module StatsPanel {
  import opened Wrappers
  import opened Records
  import opened Storage
  import opened Crews

  /** The displayed values. */
  datatype Panel = Panel(cleanups: int, volunteers: int, trash: int, crews: nat)

  /** Three counters come from the stored object, each shown as 0 when the
      field is missing (`stats.x || 0`); the crew counter is the live length
      of the crew list, whatever the stored `crews` field says. */
  function UpdateStats(store: Store): (p: Panel)
    ensures p.crews == |CrewsOf(store)|
    ensures !Present(store, StatsKey) ==> p.cleanups == 0 && p.volunteers == 0 && p.trash == 0
    ensures StatsOf(store).cleanups.Some? ==> p.cleanups == StatsOf(store).cleanups.value
    ensures StatsOf(store).volunteers.Some? ==> p.volunteers == StatsOf(store).volunteers.value
    ensures StatsOf(store).trash.Some? ==> p.trash == StatsOf(store).trash.value
    ensures StatsOf(store).cleanups.None? ==> p.cleanups == 0
    ensures StatsOf(store).volunteers.None? ==> p.volunteers == 0
    ensures StatsOf(store).trash.None? ==> p.trash == 0
  {
    var stats := StatsOf(store);
    Panel(stats.cleanups.GetOr(0), stats.volunteers.GetOr(0), stats.trash.GetOr(0), |CrewsOf(store)|)
  }

  /** The stored `crews` counter never reaches the panel. */
  lemma UpdateStatsIgnoresStoredCrewCount(store: Store, stats: Stats, n: Option<int>)
    ensures UpdateStats(store[StatsKey := StatsRecord(stats.(crews := n))])
         == UpdateStats(store[StatsKey := StatsRecord(stats)])
  {
  }

  /** A created crew raises the crew counter by one and no other counter. */
  lemma UpdateStatsAfterCreate(store: Store, form: CrewForm, nextCleanup: string)
    ensures var p, q := UpdateStats(store), UpdateStats(CreateCrew(store, form, nextCleanup));
      q == if FormComplete(form) then p.(crews := p.crews + 1) else p
  {
    var r := CreateCrew(store, form, nextCleanup);
    assert StatsOf(r) == StatsOf(store);
  }

  /** Joining a crew leaves every counter as it was. */
  lemma UpdateStatsAfterJoin(store: Store, id: int)
    ensures UpdateStats(JoinCrew(store, id)) == UpdateStats(store)
  {
    var r := JoinCrew(store, id);
    JoinCrewKeepsIds(store, id);
    assert StatsOf(r) == StatsOf(store);
  }

  /** On first run the panel shows the seeded counters and the four seeded
      crews. */
  lemma FirstRunPanel()
    ensures UpdateStats(InitLocalStorage(map[])) == Panel(47, 1240, 2850, 4)
  {
    InitLocalStorageReads(map[]);
  }
}

=== FILE: storage.dfy ===
/** The persisted key-value store (`localStorage`) as a map from key to an
    already-decoded value, the three keys the app uses, their readers and
    the first-run seeding of `initLocalStorage`. */
module Storage {
  import opened Wrappers
  import opened Records

  /** What a key can hold. `Blank` is a stored empty string: the app tests
      presence with `!localStorage.getItem(key)`, so it counts as missing. */
  datatype Value =
    | Blank
    | BeachList(beaches: seq<Beach>)
    | CrewList(crews: seq<Crew>)
    | StatsRecord(stats: Stats)

  type Store = map<string, Value>

  const BeachesKey: string := "shorecrew_beaches"
  const CrewsKey: string := "shorecrew_crews"
  const StatsKey: string := "shorecrew_stats"

  /** `localStorage.getItem(key)` is truthy. */
  predicate Present(store: Store, key: string) {
    key in store && store[key] != Blank
  }

  /** Each of the app's keys holds a value of its own kind, or a blank. */
  predicate WellTyped(store: Store) {
    && (BeachesKey in store ==> store[BeachesKey].Blank? || store[BeachesKey].BeachList?)
    && (CrewsKey in store ==> store[CrewsKey].Blank? || store[CrewsKey].CrewList?)
    && (StatsKey in store ==> store[StatsKey].Blank? || store[StatsKey].StatsRecord?)
  }

  /** `store` and `store'` agree on every key other than `key`. */
  ghost predicate SameExcept(store: Store, store': Store, key: string) {
    forall k :: k != key ==> (k in store <==> k in store') && (k in store ==> store[k] == store'[k])
  }

  /** `JSON.parse(localStorage.getItem(key) || '[]')` for the beach list. */
  function BeachesOf(store: Store): (bs: seq<Beach>)
    ensures !Present(store, BeachesKey) ==> bs == []
    ensures WellTyped(store) && Present(store, BeachesKey) ==> store[BeachesKey] == BeachList(bs)
  {
    if BeachesKey in store && store[BeachesKey].BeachList? then store[BeachesKey].beaches else []
  }

  /** `JSON.parse(localStorage.getItem(key) || '[]')` for the crew list. */
  function CrewsOf(store: Store): (cs: seq<Crew>)
    ensures !Present(store, CrewsKey) ==> cs == []
    ensures WellTyped(store) && Present(store, CrewsKey) ==> store[CrewsKey] == CrewList(cs)
  {
    if CrewsKey in store && store[CrewsKey].CrewList? then store[CrewsKey].crews else []
  }

  /** `JSON.parse(localStorage.getItem(key) || '{}')` for the counters. */
  function StatsOf(store: Store): (st: Stats)
    ensures !Present(store, StatsKey) ==> st == NoStats
    ensures WellTyped(store) && Present(store, StatsKey) ==> store[StatsKey] == StatsRecord(st)
  {
    if StatsKey in store && store[StatsKey].StatsRecord? then store[StatsKey].stats else NoStats
  }

  /** Writing the crew list back (`localStorage.setItem` of the whole list)
      is read back unchanged and touches no other key. */
  lemma CrewsOfWrite(store: Store, cs: seq<Crew>)
    ensures CrewsOf(store[CrewsKey := CrewList(cs)]) == cs
    ensures BeachesOf(store[CrewsKey := CrewList(cs)]) == BeachesOf(store)
    ensures StatsOf(store[CrewsKey := CrewList(cs)]) == StatsOf(store)
    ensures WellTyped(store) ==> WellTyped(store[CrewsKey := CrewList(cs)])
  {
  }

  const DefaultBeaches: seq<Beach> := [
    Beach(1, "Santa Monica Beach", "Santa Monica, CA", "\U{1F3D6}\U{FE0F}", Easy, 12),
    Beach(2, "Malibu Beach", "Malibu, CA", "\U{1F30A}", Moderate, 8),
    Beach(3, "Venice Beach", "Venice, CA", "\U{1F3DD}\U{FE0F}", Hard, 15),
    Beach(4, "Long Beach", "Long Beach, CA", "\U{1F305}", Easy, 20)
  ]

  const DefaultCrews: seq<Crew> := [
    Crew(1, "Beach Warriors", "Santa Monica", 24, "2025-12-08"),
    Crew(2, "Ocean Guardians", "Malibu", 18, "2025-12-15"),
    Crew(3, "Coastal Cleaners", "Venice", 31, "2025-12-10"),
    Crew(4, "Tide Riders", "Long Beach", 42, "2025-12-12")
  ]

  const DefaultStats: Stats := Stats(Some(47), Some(1240), Some(2850), Some(4))

  /** Write `v` under `key` only when the key is missing or blank. */
  function SeedKey(store: Store, key: string, v: Value): (r: Store)
    requires v != Blank
    ensures Present(r, key)
    ensures Present(store, key) ==> r == store
    ensures !Present(store, key) ==> r[key] == v
    ensures SameExcept(store, r, key)
  {
    if Present(store, key) then store else store[key := v]
  }

  /** `initLocalStorage`: seed the beach list, the crew list and the counters,
      each only when its key is missing. */
  function InitLocalStorage(store: Store): (r: Store)
    ensures Present(r, BeachesKey) && Present(r, CrewsKey) && Present(r, StatsKey)
    ensures forall k :: Present(store, k) ==> k in r && r[k] == store[k]
    ensures forall k :: k != BeachesKey && k != CrewsKey && k != StatsKey ==>
              (k in r <==> k in store) && (k in r ==> r[k] == store[k])
    ensures !Present(store, BeachesKey) ==> r[BeachesKey] == BeachList(DefaultBeaches)
    ensures !Present(store, CrewsKey) ==> r[CrewsKey] == CrewList(DefaultCrews)
    ensures !Present(store, StatsKey) ==> r[StatsKey] == StatsRecord(DefaultStats)
  {
    var s1 := SeedKey(store, BeachesKey, BeachList(DefaultBeaches));
    var s2 := SeedKey(s1, CrewsKey, CrewList(DefaultCrews));
    SeedKey(s2, StatsKey, StatsRecord(DefaultStats))
  }

  /** Seeding a second time changes nothing. */
  lemma InitLocalStorageIdempotent(store: Store)
    ensures InitLocalStorage(InitLocalStorage(store)) == InitLocalStorage(store)
  {
  }

  /** Seeding a well-typed store leaves it well typed, and afterwards each
      reader returns the stored collection, or the default on first run. */
  lemma InitLocalStorageReads(store: Store)
    requires WellTyped(store)
    ensures WellTyped(InitLocalStorage(store))
    ensures BeachesOf(InitLocalStorage(store)) == if Present(store, BeachesKey) then BeachesOf(store) else DefaultBeaches
    ensures CrewsOf(InitLocalStorage(store)) == if Present(store, CrewsKey) then CrewsOf(store) else DefaultCrews
    ensures StatsOf(InitLocalStorage(store)) == if Present(store, StatsKey) then StatsOf(store) else DefaultStats
  {
  }
}

=== FILE: text.dfy ===
/** String operations the beach search relies on: lower-casing
    (`String.prototype.toLowerCase`) and substring search
    (`String.prototype.includes`). Strings are sequences of characters. */
module Text {

  predicate IsUpper(c: char) {
    'A' <= c <= 'Z'
  }

  /** Lower-casing of one character. Only the ASCII letters A-Z are folded. */
  function Lower(c: char): (d: char)
    ensures !IsUpper(d)
    ensures IsUpper(c) ==> d as int == c as int + 32
    ensures !IsUpper(c) ==> d == c
  {
    if IsUpper(c) then (c as int + 32) as char else c
  }

  /** Lower-casing of a whole string, character by character. */
  function LowerStr(s: string): (r: string)
    ensures |r| == |s|
    ensures forall i :: 0 <= i < |s| ==> !IsUpper(r[i])
    ensures forall i :: 0 <= i < |s| && IsUpper(s[i]) ==> r[i] as int == s[i] as int + 32
    ensures forall i :: 0 <= i < |s| && !IsUpper(s[i]) ==> r[i] == s[i]
    ensures forall i :: 0 <= i < |s| ==> r[i] == Lower(s[i])
  {
    seq(|s|, i requires 0 <= i < |s| => Lower(s[i]))
  }

  /** A lower-cased string contains no upper-case letter, so lower-casing
      it again changes nothing. */
  lemma LowerStrIdempotent(s: string)
    ensures LowerStr(LowerStr(s)) == LowerStr(s)
  {
    var once := LowerStr(s);
    var twice := LowerStr(once);
    forall i | 0 <= i < |s|
      ensures twice[i] == once[i]
    {
      assert !IsUpper(once[i]);
    }
  }

  /** `t` occurs in `s` starting at position `i`. */
  predicate OccursAt(s: string, t: string, i: int) {
    0 <= i && i + |t| <= |s| && s[i..i + |t|] == t
  }

  /** An occurrence is either at the front or one position further into
      the rest of the string. */
  lemma OccursShift(s: string, t: string)
    requires |s| > 0
    ensures (exists i :: OccursAt(s, t, i)) <==> OccursAt(s, t, 0) || exists j :: OccursAt(s[1..], t, j)
  {
    if j :| OccursAt(s[1..], t, j) {
      assert s[1..][j..j + |t|] == s[j + 1..j + 1 + |t|];
      assert OccursAt(s, t, j + 1);
    }
    if i :| OccursAt(s, t, i) && i != 0 {
      assert s[1..][i - 1..i - 1 + |t|] == s[i..i + |t|];
      assert OccursAt(s[1..], t, i - 1);
    }
  }

  /** `s.includes(t)`: scan `s` from the left, comparing a window of `|t|`
      characters at each position. The scan finds the term exactly when it
      occurs at some position. */
  function Contains(s: string, t: string): (r: bool)
    ensures r <==> exists i :: OccursAt(s, t, i)
    decreases |s|
  {
    if |t| > |s| then
      assert forall i :: !OccursAt(s, t, i);
      false
    else if s[..|t|] == t then
      assert OccursAt(s, t, 0);
      true
    else
      OccursShift(s, t);
      Contains(s[1..], t)
  }

  /** Every string includes the empty string. */
  lemma ContainsEmpty(s: string)
    ensures Contains(s, "")
  {
    assert s[..0] == "";
  }

  /** Containment is transitive: an occurrence of `u` inside `s` carries
      every occurrence of `t` inside `u` with it. */
  lemma ContainsTransitive(s: string, u: string, t: string)
    requires Contains(s, u) && Contains(u, t)
    ensures Contains(s, t)
  {
    var i :| OccursAt(s, u, i);
    var j :| OccursAt(u, t, j);
    forall k | 0 <= k < |t|
      ensures s[i + j + k] == t[k]
    {
      assert s[i..i + |u|][j + k] == s[i + j + k];
      assert u[j..j + |t|][k] == u[j + k];
    }
    assert s[i + j..i + j + |t|] == t;
    assert OccursAt(s, t, i + j);
  }
}

=== FILE: wrappers.dfy ===
/** The optional-value datatype used wherever the app may find nothing
    (a missing form field, a `find` with no match, a missing stats field). */
module Wrappers {

  datatype Option<+T> = None | Some(value: T) {

    /** The encapsulated value, or `default` when there is none. */
    function GetOr(default: T): (r: T)
      ensures Some? ==> r == value
      ensures None? ==> r == default
    {
      match this
      case Some(v) => v
      case None => default
    }
  }
}
